=== FILE: README.md ===
# Cuenta / Banco: a verified model of the account and bank domain

The repository teaches JUnit 5 on a tiny banking domain. An account (`Cuenta`) has an
owner (`persona`) and an exact decimal balance (`saldo`, a `BigDecimal`). A debit
(`debito`) larger than the balance throws `DineroInsuficienteException` with the
message "Dinero Insuficiente". A credit (`credito`) always succeeds. Two accounts are
equal when owner and balance match. A bank (`Banco`) registers accounts (`addCuenta`),
which makes each account point back at the bank. It also moves money between accounts
(`transferir`): a debit of the source followed by a credit of the target.

The contracts of `Cuenta`, `Banco` and `DineroInsuficienteException` follow what the
assertions of `CuentaTest.java` require of them; each `## Model` row cites the
assertion it rests on, and says so where a clause rests on one of the modelling
choices listed below instead.

Files:

- `outcomes.dfy` (module `Outcomes`): the insufficient-funds error with its message. It
  also holds `Result` and `Outcome`, which return that error as a value instead of
  throwing it.
- `balances.dfy` (module `Balances`): the arithmetic as pure functions on `real`
  amounts. `Debit`, `Credit` and `Transfer` are here. `Run` executes a client's
  sequence of calls, aborting at the first refused debit the way an uncaught
  exception would. The lemmas relate a run to the net sum of its calls and to the
  overdraft rule.
- `accounts.dfy` (module `Accounts`): the classes `Account` and `Bank`, mutated in place
  under `modifies` frames. The bank back-reference is a `Bank?` object reference, not a
  copy of the bank's name. Each debit and credit delegates to `Balances`; `SetBalance`
  replaces the balance directly.
- `scenarios.dfy` (module `Scenarios`): the concrete scenarios of the test class, run
  on fresh objects. Each states the outcome the test asserts; where it states more,
  the extra clause follows from a modelling choice listed below and is marked so.

Balances are Dafny `real`, which represents every `BigDecimal` value exactly.

Modelling choices the test class does not fix:

- A debit is refused exactly when `balance - amount < 0`. So debiting the whole balance
  is allowed and leaves 0.
- A refused debit leaves the balance as it was.
- Equality does not compare the bank reference. In CuentaTest.java:94-98 neither
  account has a bank, so no assertion decides this.
- The error message is the Spanish "Dinero Insuficiente" that the test asserts, not an
  English translation.

## Model

| member | source | states |
|---|---|---|
| Balances.Debit | src/test/java/ar/com/benjamd/junit5app/ejemplo/models/CuentaTest.java:108-138 | refused with the insufficient-funds error iff the amount exceeds the balance; on success the new balance is non-negative and crediting the amount back restores the old one |
| Balances.Credit | src/test/java/ar/com/benjamd/junit5app/ejemplo/models/CuentaTest.java:119-124 | the balance grows by exactly the amount, with no check; a non-negative credit never lowers it |
| Balances.DebitUndoesCredit | src/test/java/ar/com/benjamd/junit5app/ejemplo/models/CuentaTest.java:108-125 | debiting what was just credited gives back the old balance, and is refused exactly when the old balance was negative |
| Balances.Transfer | src/test/java/ar/com/benjamd/junit5app/ejemplo/models/CuentaTest.java:163-176 | a transfer fails iff the source's debit fails; on success the sum of the two balances is conserved, the source stays non-negative and the target gains exactly the amount |
| Balances.RunAddsNet | src/test/java/ar/com/benjamd/junit5app/ejemplo/models/CuentaTest.java:108-125 | a sequence of debits and credits that completes ends at exactly the opening balance plus the credits minus the debits |
| Balances.RunKeepsNonNegative | src/test/java/ar/com/benjamd/junit5app/ejemplo/models/CuentaTest.java:128-138 | from a non-negative balance, with no negative credits, a completed sequence of calls never ends below zero |
| Balances.RunFailsIffSomeDebitShort | src/test/java/ar/com/benjamd/junit5app/ejemplo/models/CuentaTest.java:128-138 | a sequence of calls fails iff some debit in it exceeds the balance the earlier calls leave |
| Accounts.Account.constructor | src/test/java/ar/com/benjamd/junit5app/ejemplo/models/CuentaTest.java:94-95 | a new account keeps the given owner and balance, any balance including a negative one, and refers to no bank |
| Accounts.Account.Equals | src/test/java/ar/com/benjamd/junit5app/ejemplo/models/CuentaTest.java:94-98 | every account equals itself; equal accounts have the same owner and get the same result from any debit and any credit; the bank reference is not compared (a modelling choice) |
| Accounts.Account.SetOwner | src/test/java/ar/com/benjamd/junit5app/ejemplo/models/CuentaTest.java:369 | the owner is replaced without validation; balance and bank are unchanged |
| Accounts.Account.SetBalance | src/test/java/ar/com/benjamd/junit5app/ejemplo/models/CuentaTest.java:367 | the balance is replaced without the overdraft check; owner and bank are unchanged |
| Accounts.Account.Debit | src/test/java/ar/com/benjamd/junit5app/ejemplo/models/CuentaTest.java:108-138 | fails with the insufficient-funds error iff the new balance would be negative, changing nothing; otherwise the balance drops by exactly the amount |
| Accounts.Account.Credit | src/test/java/ar/com/benjamd/junit5app/ejemplo/models/CuentaTest.java:119-124 | the balance rises by exactly the amount; owner and bank are unchanged |
| Accounts.Bank.constructor | src/test/java/ar/com/benjamd/junit5app/ejemplo/models/CuentaTest.java:165 | a new bank holds no accounts (its name starts empty, a modelling choice) |
| Accounts.Bank.SetName | src/test/java/ar/com/benjamd/junit5app/ejemplo/models/CuentaTest.java:169 | only the name changes; the registered accounts are unchanged |
| Accounts.Bank.AddAccount | src/test/java/ar/com/benjamd/junit5app/ejemplo/models/CuentaTest.java:166-167 | the account is appended to the bank's list and now refers to this bank object; its owner and balance are untouched |
| Accounts.Bank.Transfer | src/test/java/ar/com/benjamd/junit5app/ejemplo/models/CuentaTest.java:170-179 | fails iff the source lacks funds, and then neither balance changes; otherwise the source loses and the target gains exactly the amount (no change when they are the same account); the bank's accounts stay the same; for distinct accounts the outcome and the new balance pair are those of `Balances.Transfer`, so the pair's sum is conserved |
| Accounts.Bank.FindFirstByOwner | src/test/java/ar/com/benjamd/junit5app/ejemplo/models/CuentaTest.java:185-200 | returns the earliest registered account with the given owner, and null iff no registered account has that owner |
| Scenarios.Construction | src/test/java/ar/com/benjamd/junit5app/ejemplo/models/CuentaTest.java:72-87 | an account built as ("Benjamin", 10332.221) reports that owner and a strictly positive balance of 10332.221 |
| Scenarios.EqualByValue | src/test/java/ar/com/benjamd/junit5app/ejemplo/models/CuentaTest.java:94-98 | two distinct objects built from ("juan doe", 1123.09991) are equal |
| Scenarios.DebitExact | src/test/java/ar/com/benjamd/junit5app/ejemplo/models/CuentaTest.java:109-113 | 1000.12345 debited by 100 succeeds and leaves exactly 900.12345 |
| Scenarios.CreditExact | src/test/java/ar/com/benjamd/junit5app/ejemplo/models/CuentaTest.java:120-124 | 1000.12345 credited by 100 leaves exactly 1100.12345 |
| Scenarios.CreditRepeated | src/test/java/ar/com/benjamd/junit5app/ejemplo/models/CuentaTest.java:320-330 | five repetitions on fresh accounts all end at 1100.12345 |
| Scenarios.InsufficientFunds | src/test/java/ar/com/benjamd/junit5app/ejemplo/models/CuentaTest.java:130-138 | debiting 1500 from 1000.12345 is refused with the insufficient-funds error, whose message is "Dinero Insuficiente" (asserted); the balance staying 1000.12345 is the modelling choice that a refused debit changes nothing, not an assertion of the test |
| Scenarios.EqualityIgnoresBank | src/test/java/ar/com/benjamd/junit5app/ejemplo/models/CuentaTest.java:94-98 | two accounts built alike stay equal after one of them is registered with a bank and that bank is renamed; this follows from the modelling choice that equality does not compare the bank reference, not from an assertion |
| Scenarios.EqualAccountsAgree | src/test/java/ar/com/benjamd/junit5app/ejemplo/models/CuentaTest.java:94-113 | for any owner, balance and amounts, two accounts built alike get the same outcome from the same debit (success iff the debit does not exceed the balance), and stay equal after the same debit and credit |
| Scenarios.BankAccountRelation | src/test/java/ar/com/benjamd/junit5app/ejemplo/models/CuentaTest.java:161-201 | after two registrations, a later renaming and a transfer of 500, the balances are 1000.8989 and 3000, the bank holds 2 accounts, the first account sees the bank's new name, and an account owned by "Diego" is found |

## Left out

- JUnit plumbing: lifecycle hooks, `TestInfo`/`TestReporter`, tags, nested classes and console output (lines 30-55). These are test-runner mechanics with no domain behaviour.
- The OS, JRE, system-property and environment-variable conditional tests, and `assumeTrue`/`assumingThat` (lines 206-318). They depend on the environment and add no domain behaviour.
- The timeout tests (lines 406-428). Their point is wall-clock time.
- The disabled transfer test that calls `fail()` (lines 141-156).
- Decimal rendering and conversion: `toPlainString` and its scale, `intValue` truncation and the `doubleValue` comparison. The model checks the exact values these render; `BigDecimal` scale is not represented, so equality compares numeric values only.
- The parameterized debit tests (lines 334-404). Some of their rows contradict the domain: debiting 1000 or 1000.12345 from a smaller or equal balance and expecting a positive result, or asserting that "pedro" equals "pablo". They are not stated as properties.
- The CSV-file-driven test: its data file is not part of this model.
- A new bank's initial name: no assertion reads the name before `setNombre`; the model starts it as the empty string.
- Null arguments and `NullPointerException` paths: Dafny's non-null `Account` and `real` types exclude them.
- Concurrency: the Java objects are unsynchronised and the model is sequential. A transfer is a debit followed by a credit, not an atomic step.

=== FILE: accounts.dfy ===
/** `Cuenta` and `Banco` as mutable objects. An account points back at the bank it
    was registered with through an object reference, so a bank renamed after the
    registration is seen under its new name through the account. The arithmetic
    of every balance change is the one defined in `Balances`. */
module Accounts {
  import opened Outcomes
  import Balances

  /** `Cuenta`: an owner (`persona`), a balance (`saldo`) and the bank it was last
      registered with, if any. */
  class Account {
    var owner: string
    var balance: real
    var bank: Bank?

    /** `new Cuenta(persona, saldo)`: any starting balance, negative included. */
    constructor (owner: string, balance: real)
      ensures this.owner == owner && this.balance == balance && bank == null
    {
      this.owner := owner;
      this.balance := balance;
      bank := null;
    }

    /** `equals`: the same owner and the same balance; the bank is not compared,
        and neither is object identity. Every account equals itself, and equal
        accounts get the same result from any debit and any credit. */
    function Equals(other: Account): (r: bool)
      reads this, other
      ensures this == other ==> r
      ensures r ==> owner == other.owner
      ensures r ==> forall x ::
                && Balances.Debit(balance, x) == Balances.Debit(other.balance, x)
                && Balances.Credit(balance, x) == Balances.Credit(other.balance, x)
    {
      owner == other.owner && balance == other.balance
    }

    /** `setPersona`: no validation. */
    method SetOwner(owner: string)
      modifies this
      ensures this.owner == owner && balance == old(balance) && bank == old(bank)
    {
      this.owner := owner;
    }

    /** `setSaldo`: replaces the balance without the overdraft check, so it can
        make the balance negative. */
    method SetBalance(balance: real)
      modifies this
      ensures this.balance == balance && owner == old(owner) && bank == old(bank)
    {
      this.balance := balance;
    }

    /** `debito`: refused with the insufficient-funds error, before any change,
        when the amount exceeds the balance; otherwise subtracts it exactly. */
    method Debit(amount: real) returns (r: Outcome)
      modifies this
      ensures r.Fail? <==> old(balance) - amount < 0.0
      ensures r.Fail? ==> r.error == InsufficientFunds && balance == old(balance)
      ensures r.Pass? ==> balance == old(balance) - amount && balance >= 0.0
      ensures owner == old(owner) && bank == old(bank)
    {
      match Balances.Debit(balance, amount)
      case Failure(e) =>
        r := Fail(e);
      case Success(next) =>
        balance := next;
        r := Pass;
    }

    /** `credito`: adds the amount, whatever its sign. */
    method Credit(amount: real)
      modifies this
      ensures balance == old(balance) + amount
      ensures owner == old(owner) && bank == old(bank)
    {
      balance := Balances.Credit(balance, amount);
    }
  }

  /** `Banco`: a name and the accounts registered with it, in registration order,
      duplicates kept. */
  class Bank {
    var name: string
    var accounts: seq<Account>

    /** `new Banco()`: no accounts yet. */
    constructor ()
      ensures accounts == [] && name == ""
    {
      name := "";
      accounts := [];
    }

    /** `setNombre`: only the bank changes; every account that refers to this bank
        sees the new name through that reference. */
    method SetName(name: string)
      modifies this
      ensures this.name == name && accounts == old(accounts)
    {
      this.name := name;
    }

    /** `addCuenta`: appends the account, with no duplicate check, and makes the
        account refer to this bank. */
    method AddAccount(account: Account)
      modifies this, account
      ensures accounts == old(accounts) + [account]
      ensures account.bank == this
      ensures account.owner == old(account.owner) && account.balance == old(account.balance)
      ensures name == old(name)
    {
      accounts := accounts + [account];
      account.bank := this;
    }

    /** `transferir`: debits the source and, only if that succeeded, credits the
        target. Neither account needs to be registered with this bank, and the
        bank's own state is untouched. */
    method Transfer(source: Account, target: Account, amount: real) returns (r: Outcome)
      modifies source, target
      ensures r.Fail? <==> old(source.balance) - amount < 0.0
      ensures r.Fail? ==> r.error == InsufficientFunds
      ensures r.Fail? ==> source.balance == old(source.balance) && target.balance == old(target.balance)
      ensures r.Pass? && source != target ==>
                && source.balance == old(source.balance) - amount
                && target.balance == old(target.balance) + amount
      ensures r.Pass? && source == target ==> source.balance == old(source.balance)
      ensures source.owner == old(source.owner) && target.owner == old(target.owner)
      ensures source.bank == old(source.bank) && target.bank == old(target.bank)
      ensures accounts == old(accounts) && name == old(name)
      ensures source != target ==>
                var pure := Balances.Transfer(old(source.balance), old(target.balance), amount);
                && (r.Pass? <==> pure.Success?)
                && (r.Pass? ==> (source.balance, target.balance) == pure.value)
    {
      r := source.Debit(amount);
      if r.Pass? {
        target.Credit(amount);
      }
    }

    /** The first registered account whose owner matches, as the test's stream query
        over the bank's accounts finds it, or null when there is none. */
    method FindFirstByOwner(owner: string) returns (found: Account?)
      ensures found == null <==> forall i :: 0 <= i < |accounts| ==> accounts[i].owner != owner
      ensures found != null ==>
                exists i :: 0 <= i < |accounts| && accounts[i] == found && found.owner == owner
                  && forall j :: 0 <= j < i ==> accounts[j].owner != owner
    {
      var i := 0;
      while i < |accounts|
        invariant 0 <= i <= |accounts|
        invariant forall j :: 0 <= j < i ==> accounts[j].owner != owner
      {
        if accounts[i].owner == owner {
          return accounts[i];
        }
        i := i + 1;
      }
      return null;
    }
  }
}

=== FILE: balances.dfy ===
/** The arithmetic of a `Cuenta` balance, as pure functions on exact decimal amounts.
    A Java `BigDecimal` amount is an exact decimal; Dafny's `real` holds every such
    value exactly, so subtraction and addition lose nothing here either. */
module Balances {
  import opened Outcomes

  /** `debito`: the new balance is `balance - amount`; a negative new balance is
      refused with the insufficient-funds error and nothing is subtracted. */
  function Debit(balance: real, amount: real): (r: Result<real>)
    ensures r.Failure? <==> amount > balance
    ensures r.Failure? ==> r.error == InsufficientFunds
    ensures r.Success? ==> r.value >= 0.0 && Credit(r.value, amount) == balance
  {
    var next := balance - amount;
    if next < 0.0 then Failure(InsufficientFunds) else Success(next)
  }

  /** `credito`: unconditional; any amount, negative or zero included, is added. */
  function Credit(balance: real, amount: real): (r: real)
    ensures r - balance == amount
    ensures amount >= 0.0 ==> r >= balance
  {
    balance + amount
  }

  /** Debiting what was just credited gives the old balance back, and is refused
      exactly when the old balance was already negative. */
  lemma DebitUndoesCredit(balance: real, amount: real)
    ensures Debit(Credit(balance, amount), amount)
            == if balance < 0.0 then Failure(InsufficientFunds) else Success(balance)
  {
  }

  /** `transferir` on two distinct accounts: debit the source, then credit the
      target. The credit happens only when the debit succeeded; the pair of new
      balances is (source, target). */
  function Transfer(source: real, target: real, amount: real): (r: Result<(real, real)>)
    ensures r.Failure? <==> Debit(source, amount).Failure?
    ensures r.Success? ==> r.value.0 + r.value.1 == source + target
    ensures r.Success? ==> r.value.0 >= 0.0 && r.value.1 - target == amount
  {
    match Debit(source, amount)
    case Failure(e) => Failure(e)
    case Success(left) => Success((left, Credit(target, amount)))
  }

  /** One call a client makes on an account, in the order it makes them. */
  datatype Operation = DebitOf(amount: real) | CreditOf(amount: real)

  function Apply(balance: real, op: Operation): Result<real> {
    match op
    case DebitOf(a) => Debit(balance, a)
    case CreditOf(a) => Success(Credit(balance, a))
  }

  /** A client running the calls in `ops` one after the other: the first refused
      debit throws, and the calls after it never run. */
  function Run(balance: real, ops: seq<Operation>): Result<real>
    decreases |ops|
  {
    if |ops| == 0 then Success(balance)
    else
      match Apply(balance, ops[0])
      case Failure(e) => Failure(e)
      case Success(next) => Run(next, ops[1..])
  }

  /** Signed effect of one call: credits add, debits subtract. */
  function Effect(op: Operation): real {
    match op
    case DebitOf(a) => -a
    case CreditOf(a) => a
  }

  /** Sum of the signed effects of a sequence of calls. */
  function Net(ops: seq<Operation>): real
    decreases |ops|
  {
    if |ops| == 0 then 0.0 else Effect(ops[0]) + Net(ops[1..])
  }

  /** No amount is ever rounded away: a run that completes leaves exactly the
      opening balance plus the credits minus the debits. */
  lemma {:induction false} RunAddsNet(balance: real, ops: seq<Operation>)
    ensures Run(balance, ops).Success? ==> Run(balance, ops).value == balance + Net(ops)
    decreases |ops|
  {
    if |ops| > 0 {
      match Apply(balance, ops[0])
      case Failure(_) =>
      case Success(next) =>
        RunAddsNet(next, ops[1..]);
    }
  }

  /** Overdraft protection: starting from a non-negative balance, with no negative
      credit, a run that completes never ends below zero. */
  lemma {:induction false} RunKeepsNonNegative(balance: real, ops: seq<Operation>)
    requires balance >= 0.0
    requires forall i :: 0 <= i < |ops| && ops[i].CreditOf? ==> ops[i].amount >= 0.0
    ensures Run(balance, ops).Success? ==> Run(balance, ops).value >= 0.0
    decreases |ops|
  {
    if |ops| > 0 {
      match Apply(balance, ops[0])
      case Failure(_) =>
      case Success(next) =>
        assert forall i :: 0 <= i < |ops[1..]| ==> ops[1..][i] == ops[i + 1];
        RunKeepsNonNegative(next, ops[1..]);
    }
  }

  /** The run's `k`-th call is a debit larger than the balance the earlier calls
      would have left, had they all gone through. */
  predicate RefusedAt(balance: real, ops: seq<Operation>, k: int)
    requires 0 <= k < |ops|
  {
    ops[k].DebitOf? && balance + Net(ops[..k]) < ops[k].amount
  }

  /** A run fails exactly when, for some debit in it, the opening balance plus the
      net effect of the calls before that debit is less than the debit. */
  lemma {:induction false} RunFailsIffSomeDebitShort(balance: real, ops: seq<Operation>)
    ensures Run(balance, ops).Failure?
            <==> exists k :: 0 <= k < |ops| && RefusedAt(balance, ops, k)
    decreases |ops|
  {
    if |ops| > 0 {
      var tail := ops[1..];
      var next := balance + Effect(ops[0]);
      assert ops[..0] == [];
      // Shifting an index of the tail to an index of the whole sequence.
      forall k | 0 <= k < |tail|
        ensures RefusedAt(next, tail, k) <==> RefusedAt(balance, ops, k + 1)
      {
        var prefix := ops[..k + 1];
        assert prefix[0] == ops[0] && prefix[1..] == tail[..k];
        assert Net(prefix) == Effect(ops[0]) + Net(tail[..k]);
        assert tail[k] == ops[k + 1];
      }
      match Apply(balance, ops[0])
      case Failure(_) =>
        assert RefusedAt(balance, ops, 0);
      case Success(n) =>
        assert n == next;
        assert !RefusedAt(balance, ops, 0);
        RunFailsIffSomeDebitShort(next, tail);
        if exists k :: 0 <= k < |ops| && RefusedAt(balance, ops, k) {
          var k :| 0 <= k < |ops| && RefusedAt(balance, ops, k);
          assert RefusedAt(next, tail, k - 1);
        }
    }
  }
}

=== FILE: outcomes.dfy ===
/** The one domain failure of the banking model and the result shapes that carry it.
    The Java code signals the failure by throwing `DineroInsuficienteException`;
    here it is returned as a value, so every caller sees it. */
module Outcomes {

  /** `DineroInsuficienteException`: a debit larger than the balance. */
  datatype Error = InsufficientFunds {

    /** The message `getMessage()` returns in CuentaTest.java:136-138. */
    function Message(): string {
      "Dinero Insuficiente"
    }
  }

  /** A computation that yields a value of type T or fails with an `Error`. */
  datatype Result<+T> = Success(value: T) | Failure(error: Error)

  /** A state-changing call that either completes or fails with an `Error`. */
  datatype Outcome = Pass | Fail(error: Error)
}

=== FILE: scenarios.dfy ===
/** The concrete account and bank scenarios of the JUnit class, each run against the
    object model of `Accounts`. Every scenario builds its own fresh objects, as the
    test methods do. Where a scenario states more than the test asserts, its doc
    comment says so. */
module Scenarios {
  import opened Outcomes
  import opened Accounts

  /** The account built before every test: owner "Benjamin", balance 10332.221. */
  method Construction() returns (owner: string, balance: real)
    ensures owner == "Benjamin"
    ensures balance == 10332.221 && balance > 0.0
  {
    var cuenta := new Account("Benjamin", 10332.221);
    owner, balance := cuenta.owner, cuenta.balance;
  }

  /** Two distinct account objects with the same owner and balance are equal. */
  method EqualByValue() returns (equal: bool, sameObject: bool)
    ensures equal && !sameObject
  {
    var cuenta := new Account("juan doe", 1123.09991);
    var cuenta2 := new Account("juan doe", 1123.09991);
    equal := cuenta2.Equals(cuenta);
    sameObject := cuenta2 == cuenta;
  }

  /** 1000.12345 debited by 100 leaves exactly 900.12345. */
  method DebitExact() returns (r: Outcome, balance: real)
    ensures r == Pass && balance == 900.12345
  {
    var cuenta := new Account("Pedro", 1000.12345);
    r := cuenta.Debit(100.0);
    balance := cuenta.balance;
  }

  /** 1000.12345 credited by 100 gives exactly 1100.12345. */
  method CreditExact() returns (balance: real)
    ensures balance == 1100.12345
  {
    var cuenta := new Account("Pedro", 1000.12345);
    cuenta.Credit(100.0);
    balance := cuenta.balance;
  }

  /** The credit scenario repeated five times, each time on a fresh account:
      every repetition ends at the same 1100.12345. */
  method CreditRepeated() returns (balances: seq<real>)
    ensures |balances| == 5
    ensures forall i :: 0 <= i < |balances| ==> balances[i] == 1100.12345
  {
    balances := [];
    while |balances| < 5
      invariant |balances| <= 5
      invariant forall i :: 0 <= i < |balances| ==> balances[i] == 1100.12345
    {
      var cuenta := new Account("Pedro", 1000.12345);
      cuenta.Credit(100.0);
      balances := balances + [cuenta.balance];
    }
  }

  /** Debiting 1500 from 1000.12345 is refused with the insufficient-funds error,
      whose message is "Dinero Insuficiente". The test asserts only the error and
      its message; that the balance is left as it was follows from the model's
      choice that a refused debit changes nothing. */
  method InsufficientFunds() returns (r: Outcome, message: string, balance: real)
    ensures r == Fail(Outcomes.InsufficientFunds)
    ensures message == "Dinero Insuficiente"
    ensures balance == 1000.12345
  {
    var cuenta := new Account("Pedro", 1000.12345);
    r := cuenta.Debit(1500.0);
    balance := cuenta.balance;
    message := r.error.Message();
  }

  /** Two accounts built alike and then given the same debit and the same credit
      get the same outcomes and stay equal. */
  method EqualAccountsAgree(owner: string, balance: real, debit: real, credit: real)
    returns (debited: bool, sameOutcome: bool, stillEqual: bool)
    ensures sameOutcome && stillEqual
    ensures debited <==> debit <= balance
  {
    var cuenta := new Account(owner, balance);
    var cuenta2 := new Account(owner, balance);
    var r := cuenta.Debit(debit);
    var r2 := cuenta2.Debit(debit);
    cuenta.Credit(credit);
    cuenta2.Credit(credit);
    debited := r.Pass?;
    sameOutcome := r == r2;
    stillEqual := cuenta.Equals(cuenta2);
  }

  /** Registering one of two equal accounts with a bank, and renaming that bank,
      does not make them unequal. No test compares accounts that have a bank; this
      follows from the model's choice that equality ignores the bank reference. */
  method EqualityIgnoresBank(owner: string, balance: real, bankName: string)
    returns (before: bool, afterRegistration: bool, afterRename: bool)
    ensures before && afterRegistration && afterRename
  {
    var cuenta := new Account(owner, balance);
    var cuenta2 := new Account(owner, balance);
    before := cuenta.Equals(cuenta2);
    var banco := new Bank();
    banco.AddAccount(cuenta);
    afterRegistration := cuenta.Equals(cuenta2);
    banco.SetName(bankName);
    afterRename := cuenta.Equals(cuenta2);
  }

  /** Two accounts registered with a bank that is named afterwards; 500 moves
      from "Diego" (1500.8989) to "Juan Pedro" (2500). */
  method BankAccountRelation()
    returns (balance1: real, balance2: real, count: nat, bankName: string, diego: Account?)
    ensures balance2 == 1000.8989 && balance1 == 3000.0
    ensures count == 2
    ensures bankName == "Banco Nacion"
    ensures diego != null && diego.owner == "Diego"
  {
    var cuenta1 := new Account("Juan Pedro", 2500.0);
    var cuenta2 := new Account("Diego", 1500.8989);
    var banco := new Bank();
    banco.AddAccount(cuenta1);
    banco.AddAccount(cuenta2);
    banco.SetName("Banco Nacion");
    var r := banco.Transfer(cuenta2, cuenta1, 500.0);
    balance1, balance2 := cuenta1.balance, cuenta2.balance;
    count := |banco.accounts|;
    bankName := cuenta1.bank.name;
    assert banco.accounts[1] == cuenta2;
    diego := banco.FindFirstByOwner("Diego");
  }
}
